=== FILE: README.md ===
# API health monitor — Dafny model

This project models the core of a small API health monitor (`tempt.py`). A
`HealthMonitor` object keeps four things: the current status (`"Unknown"`,
`"UP"` or `"DOWN"`), the time of the last check, a history of timestamped
check results capped at 100 records, and a `monitoring` flag that says whether
the background loop has been started. A background loop runs one health check
per minute. An HTTP handler serves four things from the monitor's state: an
HTML status page, a JSON summary at `/api/status`, a manual check at
`POST /trigger-health-check`, and 404 for every other GET or POST.

The model is functional. The monitor is an immutable `State` datatype, and
each operation is a pure function from state to state. The network probe is
replaced by an `Outcome` value: `Response(code)`, `UrlError` or `OtherError`.
The clock reading becomes a `Timestamp` string. Both arrive together as a
`Tick`.

Modules:
- `Probe` (`probe.dfy`): the UP/DOWN classification and the status strings.
- `History` (`history.dfy`): the capped history and its first-in-first-out
  eviction.
- `HealthMonitor` (`monitor.dfy`): the monitor state, one check, the start
  and stop flag, and the loop.
- `Handler` (`handler.dfy`): request routing, the page rows, the JSON
  summary, and an event trace over the whole process lifetime.
- `Wrappers` (`wrappers.dfy`): `Option`, standing in for Python's `None`.

The program watches one hard-coded URL, serves fixed routes and takes no
lock around the monitor's state.

## Model

| member | source | states |
|---|---|---|
| Probe.Classify | tempt.py:21-38 | The verdict is UP exactly when the probe completed with status code 200. Any other code, a `URLError` (refused connection, DNS, TLS, connect timeout, `HTTPError`) or any other `Exception`, such as a read timeout, gives DOWN. The function is total, so none of these escapes the check. |
| Probe.Label | tempt.py:13-38 | The stored status strings are `"Unknown"`, `"UP"` and `"DOWN"`, and each string belongs to exactly one status. |
| History.Append | tempt.py:43-47 | The new record becomes the newest. Under 100 records, nothing is dropped. At 100 or more, exactly the oldest record is dropped. A history within the cap stays within it. |
| History.AppendKeepsOlder | tempt.py:43-47 | No append edits a record. Apart from the new record, the result is the newest part of the old history, unchanged and in order. |
| History.AppendWindow | tempt.py:43-47 | Appending to the last 100 of a sequence gives the last 100 of the extended sequence. |
| History.AppendAllIsWindow | tempt.py:43-47 | Any run of appends to a history within the cap leaves the 100 most recent records, in append order. |
| HealthMonitor.Init | tempt.py:13-17 | A new monitor has status `Unknown`, no last check, an empty history and monitoring off, and it satisfies the state invariant `Valid`. |
| HealthMonitor.CheckHealth | tempt.py:19-47 | A check sets the status to the classified verdict and the last check to the tick's time. It appends exactly one record through the capped append. It leaves the monitoring flag alone and preserves `Valid`: the history stays within 100 records, and the newest record matches the status and last check. |
| HealthMonitor.NewestMatchesStatus | tempt.py:26-44 | After any check, from any state, the newest record's verdict and timestamp are the current status and the last check. |
| HealthMonitor.CheckRecordsUpIff | tempt.py:21-44 | A check records UP, and sets the status to UP, exactly when the probe returned code 200. |
| HealthMonitor.RecordsOfInOrder | tempt.py:40-44 | The i-th record of a run of checks carries the i-th check's time and verdict, so records are stored in the order the checks ran. |
| HealthMonitor.RunChecksAppends | tempt.py:19-49 | A run of checks appends exactly its own records in order, keeps `Valid`, and never changes the monitoring flag. |
| HealthMonitor.ChecksFromInit | tempt.py:13-47 | N checks from a new monitor leave exactly min(N, 100) records: the most recent ones, in the order the checks ran. |
| HealthMonitor.StartMonitoring | tempt.py:51-57 | Starting sets monitoring on and keeps all other fields. A new loop is spawned exactly when monitoring was off. |
| HealthMonitor.StartIdempotent | tempt.py:51-57 | A second start changes nothing and spawns no loop. A start while already monitoring is a no-op. |
| HealthMonitor.Shutdown | tempt.py:273-275 | Shutdown clears the monitoring flag and changes nothing else. |
| HealthMonitor.MonitorLoop | tempt.py:59-63 | The loop's final state is the result of running checks on exactly the first `checks` ticks, in order. With the flag on, that is every tick, and the history is the capped append of all their records. With the flag off, no check runs. The loop never changes the flag. |
| Handler.NewestFirst | tempt.py:75-83 | The rows are the history records in reverse order (newest first), one row per record. |
| Handler.TableRows | tempt.py:75-86 | An empty history gives only the placeholder row. Any other history gives its records newest first, with no placeholder. |
| Handler.LastCheckedText | tempt.py:170-170 | The page shows the last-check time, or "Never" when there is none or it is the empty string (Python's `or` treats the empty string as false). |
| Handler.RowsReverseHistory | tempt.py:76-86 | Reading the rendered rows backwards gives back the stored history record for record. Rendering reorders for display but neither drops nor alters records. |
| Handler.RenderPage | tempt.py:65-86 | The page shows only the placeholder row exactly when the history is empty; otherwise it has one row per record. In a valid state, the status reads "Unknown" exactly when nothing has been checked, and then the last check reads "Never". |
| Handler.PageTopRowIsCurrent | tempt.py:65-86 | In a valid state, the page's top row is the record that the status and last check describe. A fresh page shows "Unknown", "Never" and only the placeholder row. |
| Handler.Summarize | tempt.py:213-217 | `history_count` is the history length. In a valid state it is at most 100, and `last_check` is null and the status "Unknown" exactly when it is 0. |
| Handler.InitialSummary | tempt.py:213-217 | The `/api/status` summary of a new monitor is ("Unknown", None, 0). |
| Handler.SummaryAfterChecks | tempt.py:213-217 | After N checks from a new monitor, `history_count` is min(N, 100), and the summary reports the last check's verdict and time. |
| Handler.Route | tempt.py:201-247 | GET "/" or "/health-status" is the page. GET "/api/status" is the summary. POST "/trigger-health-check" is the manual check. Everything else is missing. |
| Handler.Handle | tempt.py:200-247 | Every GET or POST is answered with 200 or 404, and every 404, and only a 404, carries the standard error page. GET "/" and "/health-status" return the rendered page, and GET "/api/status" returns the summary. A GET never changes the state. Only the manual-check route can change it, and no request breaks `Valid`. |
| Handler.HandleTotal | tempt.py:200-247 | Every request gets 200 exactly when its (method, path) is one of the four known routes, and 404 otherwise. The two page paths return the rendered page, and "/api/status" returns the summary. Only the trigger route changes the state, and it does so by exactly one check. No request breaks `Valid`. |
| Handler.TriggerReportsFreshState | tempt.py:222-236 | The manual check returns 200 with the status and last check left by this check ("UP" exactly on code 200). A following summary reports the same values. |
| Handler.ReplayValid | tempt.py:254-277 | From a new monitor, any sequence of atomic steps keeps the history within 100 records, and the status and last check keep agreeing with the newest record. The steps are starts, loop checks, requests and shutdowns, including orders the program cannot take. |
| Handler.ReplayHistory | tempt.py:19-63 | After any sequence of steps from a new monitor, the history is the capped append of the records of every check the steps ran, loop checks and manual checks alike, in order. |
| Handler.ReplayKeepsRecentChecks | tempt.py:43-47 | After any sequence of steps, with N checks among them, the history is exactly the min(N, 100) most recent check records, in order. |

## Left out

- The network call (`urllib.request.urlopen` with its 10-second timeout) is a foreign call. Its result is the `Outcome` input. `urlopen` raises `HTTPError`, a kind of `URLError`, for most non-2xx codes. The model still lets any code appear in `Response(code)`. Either way, every code other than 200 is DOWN. `KeyboardInterrupt` and `SystemExit` are not caught by `except Exception` (tempt.py:36) and are not modelled.
- Clock reading and `strftime` formatting are not modelled. The timestamp is an input string.
- Threads, the daemon flag and the 60-second sleep are not modelled. `MonitorLoop` takes a finite list of ticks in place of an endless loop.
- Handler.ReplayValid: it treats each check as one indivisible step. The source has no lock. Inside `check_health`, `current_status` is written before `last_check` and the history. A request served during a check, or two overlapping checks, can see or leave a mixed state. The model makes no atomic-read claim.
- Handler.ReplayHistory: it also treats each check as one indivisible step. In the unlocked source, two overlapping checks can interleave their writes, so the promise holds only for checks that do not overlap.
- The 500 branch of `do_POST` (tempt.py:237-245) is not modelled. In the model, `CheckHealth` is total and never raises, so that branch cannot be reached. In the source, the `try` also covers writing the 200 reply (tempt.py:227-236). So a client that disconnects before the reply is written (`BrokenPipeError`, `ConnectionResetError`) also gets the 500 path. By then the check has already changed the state. A failure inside `check_health` itself, such as `print` or `strftime`, reaches it too.
- Handler.Handle: `send_error(404)` (tempt.py:220, tempt.py:247) writes the standard HTML error page with its headers. The model keeps only that the reply is that error page (`ErrorPage`), not its text or headers.
- HTML/CSS/JavaScript text and the status and row colours are not modelled. The page keeps only the status text, the last-check text and the ordered rows.
- Server plumbing is not modelled: `TCPServer`, header writing, JSON encoding, `print` logging, `log_message`, the `PORT` environment variable and the `global monitor` wiring.
- Request methods other than GET and POST are not modelled. The handler subclasses `SimpleHTTPRequestHandler` (tempt.py:200). Its inherited `do_HEAD` answers HEAD from the working directory, and other methods get 501.

=== FILE: handler.dfy ===
/**
 The request handler: a total routing of (method, path) to the HTML page,
 the JSON status summary, a manual check, or 404, and the views of the
 monitor state those routes return. Header writing and JSON/HTML encoding
 are left out; the bodies are kept as structured values.
 */
module Handler {
  import opened Wrappers
  import opened Probe
  import opened History
  import opened HealthMonitor

  /** The two request methods (verbs) the handler implements. */
  datatype Method = Get | Post

  datatype Request = Request(verb: Method, path: string)

  /** One row of the rendered history table. */
  datatype Row = Entry(timestamp: Timestamp, verdict: Verdict) | Placeholder

  /** The data the HTML page shows: status, last-check text and table rows. */
  datatype Page = Page(currentStatus: string, lastChecked: string, rows: seq<Row>)

  /** The `/api/status` JSON object. */
  datatype Summary = Summary(currentStatus: string, lastCheck: Option<Timestamp>, historyCount: nat)

  /** The body of a successful manual-check response. */
  datatype CheckReport = CheckReport(status: string, message: string,
                                       currentStatus: string, lastCheck: Option<Timestamp>)

  /** A reply body. `ErrorPage` stands for the standard HTML error page that
      `send_error` writes; its text is not modelled. */
  datatype Body = Html(page: Page) | Json(summary: Summary) | Triggered(report: CheckReport) | ErrorPage

  datatype Reply = Reply(code: int, body: Body)

  /** The history rows, newest first. */
  function NewestFirst(h: seq<Record>): (rows: seq<Row>)
    ensures |rows| == |h|
    ensures forall i :: 0 <= i < |h| ==>
              rows[i] == Entry(h[|h| - 1 - i].timestamp, h[|h| - 1 - i].verdict)
  {
    if h == [] then []
    else [Entry(Newest(h).timestamp, Newest(h).verdict)] + NewestFirst(h[..|h| - 1])
  }

  /** The table rows of the page: the history reversed, or only the
      placeholder row when nothing has been checked yet. */
  function TableRows(h: seq<Record>): (rows: seq<Row>)
    ensures h == [] <==> rows == [Placeholder]
    ensures h != [] ==> rows == NewestFirst(h)
  {
    if h == [] then [Placeholder]
    else
      var rows := NewestFirst(h);
      assert rows[0].Entry?;
      rows
  }

  /** `last_check or 'Never'`: an absent or empty timestamp shows as "Never". */
  function LastCheckedText(last: Option<Timestamp>): (s: string)
    ensures last.Some? && last.value != "" ==> s == last.value
    ensures last == None || last == Some("") ==> s == "Never"
  {
    match last
    case Some(t) => if t == "" then "Never" else t
    case None => "Never"
  }

  /** The data of the status page. Rendering only reads the state. */
  function RenderPage(m: State): (p: Page)
    ensures p.rows == [Placeholder] <==> m.history == []
    ensures |p.rows| == if m.history == [] then 1 else |m.history|
    ensures Valid(m) ==> (p.currentStatus == "Unknown" <==> m.history == [])
    ensures Valid(m) && m.history == [] ==> p.lastChecked == "Never"
  {
    Page(Label(m.currentStatus), LastCheckedText(m.lastCheck), TableRows(m.history))
  }

  /** Reading the rows back in reverse recovers the stored history exactly,
      so rendering reorders for display without losing or altering records. */
  lemma RowsReverseHistory(m: State)
    requires m.history != []
    ensures var rows := RenderPage(m).rows;
      && |rows| == |m.history|
      && forall i :: 0 <= i < |rows| ==>
           rows[|rows| - 1 - i] == Entry(m.history[i].timestamp, m.history[i].verdict)
  {
  }

  /** In a valid state the top row of the page is the record the status card
      describes; an empty history shows only the placeholder and "Never". */
  lemma PageTopRowIsCurrent(m: State)
    requires Valid(m)
    ensures var p := RenderPage(m);
      && (m.history == [] ==> p.rows == [Placeholder] && p.lastChecked == "Never"
                                && p.currentStatus == "Unknown")
      && (m.history != [] ==>
            && Some(p.rows[0].timestamp) == m.lastCheck
            && Known(p.rows[0].verdict) == m.currentStatus)
  {
  }

  /** The `/api/status` object. In a valid state the count is within the
      cap, and it is zero exactly when no check has run. */
  function Summarize(m: State): (s: Summary)
    ensures s.historyCount == |m.history|
    ensures Valid(m) ==> s.historyCount <= Capacity
    ensures Valid(m) ==> (s.lastCheck == None <==> s.historyCount == 0)
    ensures Valid(m) ==> (s.currentStatus == "Unknown" <==> s.historyCount == 0)
  {
    Summary(Label(m.currentStatus), m.lastCheck, |m.history|)
  }

  /** The summary of a fresh monitor is ("Unknown", None, 0). */
  lemma InitialSummary()
    ensures Summarize(Init()) == Summary("Unknown", None, 0)
  {
  }

  /** After N checks from a fresh monitor the summary counts min(N, 100)
      records and reports the last check's verdict and time. */
  lemma {:induction false} SummaryAfterChecks(ticks: seq<Tick>)
    requires ticks != []
    ensures var s := Summarize(RunChecks(Init(), ticks));
      && s.historyCount == (if |ticks| < Capacity then |ticks| else Capacity)
      && s.lastCheck == Some(ticks[|ticks| - 1].at)
      && s.currentStatus == (if Classify(ticks[|ticks| - 1].outcome) == Up then "UP" else "DOWN")
  {
    ChecksFromInit(ticks);
  }

  /** The endpoints the handler distinguishes. */
  datatype Endpoint = StatusPage | StatusApi | Trigger | Missing

  function Route(req: Request): (e: Endpoint)
    ensures e == StatusPage <==> req.verb == Get && (req.path == "/" || req.path == "/health-status")
    ensures e == StatusApi <==> req.verb == Get && req.path == "/api/status"
    ensures e == Trigger <==> req.verb == Post && req.path == "/trigger-health-check"
  {
    match req.verb
    case Get =>
      if req.path == "/" || req.path == "/health-status" then StatusPage
      else if req.path == "/api/status" then StatusApi
      else Missing
    case Post =>
      if req.path == "/trigger-health-check" then Trigger else Missing
  }

  /** Serves one request. A manual check, if the route asks for one, uses the
      probe outcome and clock reading in `t`. */
  function Handle(m: State, req: Request, t: Tick): (r: (State, Reply))
    ensures r.1.code == 200 || r.1.code == 404
    ensures r.1.code == 404 <==> r.1.body == ErrorPage
    ensures req.verb == Get ==> r.0 == m
    ensures req.verb == Get && (req.path == "/" || req.path == "/health-status") ==>
              r.1 == Reply(200, Html(RenderPage(m)))
    ensures (req.verb, req.path) == (Get, "/api/status") ==> r.1 == Reply(200, Json(Summarize(m)))
    ensures r.0 != m ==> Route(req) == Trigger
    ensures Valid(m) ==> Valid(r.0)
  {
    match Route(req)
    case StatusPage => (m, Reply(200, Html(RenderPage(m))))
    case StatusApi => (m, Reply(200, Json(Summarize(m))))
    case Trigger =>
      var m' := CheckHealth(m, t);
      (m', Reply(200, Triggered(CheckReport("success", "Health check completed",
                                                Label(m'.currentStatus), m'.lastCheck))))
    case Missing => (m, Reply(404, ErrorPage))
  }

  /** The routes that answer 200; every other request answers 404. */
  const KnownRoutes: set<(Method, string)> :=
    {(Get, "/"), (Get, "/health-status"), (Get, "/api/status"), (Post, "/trigger-health-check")}

  /** Routing is total: every request gets 200 exactly when its route is
      known and 404 otherwise; the two page paths return the page and the
      status path returns the summary; only the trigger route changes the state,
      by exactly one check; and the invariant survives any request. */
  lemma HandleTotal(m: State, req: Request, t: Tick)
    ensures var (m', resp) := Handle(m, req, t);
      && (resp.code == 200 <==> (req.verb, req.path) in KnownRoutes)
      && (resp.code == 404 <==> (req.verb, req.path) !in KnownRoutes)
      && ((req.verb, req.path) == (Post, "/trigger-health-check") ==> m' == CheckHealth(m, t))
      && ((req.verb, req.path) != (Post, "/trigger-health-check") ==> m' == m)
      && (req.verb == Get && (req.path == "/" || req.path == "/health-status") ==>
            resp.body == Html(RenderPage(m)))
      && ((req.verb, req.path) == (Get, "/api/status") ==> resp.body == Json(Summarize(m)))
      && (Valid(m) ==> Valid(m'))
  {
  }

  /** A manual check answers with the state the check left behind. */
  lemma TriggerReportsFreshState(m: State, t: Tick)
    ensures var (m', resp) := Handle(m, Request(Post, "/trigger-health-check"), t);
      && resp.code == 200
      && resp.body.Triggered?
      && resp.body.report.lastCheck == Some(t.at)
      && resp.body.report.currentStatus == (if t.outcome == Response(200) then "UP" else "DOWN")
      && Summarize(m').lastCheck == resp.body.report.lastCheck
      && Summarize(m').currentStatus == resp.body.report.currentStatus
  {
  }

  /** The atomic steps a trace is made of. A trace may order them in ways the
      program cannot, for instance a loop check before any start, and it
      treats each check as one indivisible step. */
  datatype Event =
    | StartLoop
    | LoopCheck(t: Tick)
    | Serve(req: Request, t: Tick)
    | Stop

  function Step(m: State, e: Event): State
  {
    match e
    case StartLoop => StartMonitoring(m).0
    case LoopCheck(t) => CheckHealth(m, t)
    case Serve(req, t) => Handle(m, req, t).0
    case Stop => Shutdown(m)
  }

  function Replay(m: State, es: seq<Event>): State
  {
    if es == [] then m else Step(Replay(m, es[..|es| - 1]), es[|es| - 1])
  }

  /** Any sequence of atomic steps from a fresh monitor, including some the
      program cannot take, keeps the history within 100 records and the
      status fields in agreement with its newest record. */
  lemma {:induction false} ReplayValid(es: seq<Event>)
    ensures Valid(Replay(Init(), es))
    decreases |es|
  {
    if es != [] {
      var front, e := es[..|es| - 1], es[|es| - 1];
      ReplayValid(front);
      var m := Replay(Init(), front);
      if e.Serve? {
        HandleTotal(m, e.req, e.t);
      }
    }
  }

  /** The ticks of the steps that run a check, in order: loop checks and
      manual-check requests. */
  function ChecksOf(es: seq<Event>): seq<Tick>
  {
    if es == [] then []
    else
      var e := es[|es| - 1];
      ChecksOf(es[..|es| - 1]) +
        match e
        case LoopCheck(t) => [t]
        case Serve(req, t) => if Route(req) == Trigger then [t] else []
        case _ => []
  }

  /** Over any sequence of steps from a fresh monitor, the history holds the
      records of the checks the steps ran, loop and manual checks alike,
      through the capped append: the min(N, 100) most recent, in order. */
  lemma {:induction false} ReplayHistory(es: seq<Event>)
    ensures Replay(Init(), es).history == AppendAll([], RecordsOf(ChecksOf(es)))
    decreases |es|
  {
    if es != [] {
      var front, e := es[..|es| - 1], es[|es| - 1];
      ReplayHistory(front);
      var m, ts := Replay(Init(), front), ChecksOf(front);
      match e
      case LoopCheck(t) =>
        assert ChecksOf(es) == ts + [t];
        RecordsOfSnoc(ts, t);
        AppendAllSnoc([], RecordsOf(ts), RecordOf(t));
      case Serve(req, t) =>
        HandleTotal(m, req, t);
        if Route(req) == Trigger {
          assert ChecksOf(es) == ts + [t];
          RecordsOfSnoc(ts, t);
          AppendAllSnoc([], RecordsOf(ts), RecordOf(t));
        } else {
          assert ChecksOf(es) == ts;
        }
      case StartLoop =>
        assert ChecksOf(es) == ts;
      case Stop =>
        assert ChecksOf(es) == ts;
    }
  }

  /** Hence the history after any steps is the window of the most recent
      100 check records. */
  lemma {:induction false} ReplayKeepsRecentChecks(es: seq<Event>)
    ensures var n := |ChecksOf(es)|;
      && Replay(Init(), es).history == Window(RecordsOf(ChecksOf(es)), Capacity)
      && |Replay(Init(), es).history| == if n < Capacity then n else Capacity
  {
    ReplayHistory(es);
    AppendAllIsWindow([], RecordsOf(ChecksOf(es)));
    assert [] + RecordsOf(ChecksOf(es)) == RecordsOf(ChecksOf(es));
  }
}

=== FILE: history.dfy ===
/**
 The bounded health history: an oldest-first sequence of timestamped
 verdicts, capped at `Capacity` records with first-in-first-out eviction.
 */
module History {
  import opened Probe

  /** A formatted wall-clock reading ("%Y-%m-%d %H:%M:%S" in the source). */
  type Timestamp = string

  /** The most records the history keeps. */
  const Capacity: nat := 100

  /** One history entry; never edited once appended. */
  datatype Record = Record(timestamp: Timestamp, verdict: Verdict)

  /** The newest record of a non-empty history. */
  function Newest(h: seq<Record>): Record
    requires h != []
  {
    h[|h| - 1]
  }

  /** The last `min(|s|, n)` elements of `s`: the most recent ones, in order. */
  function Window<T>(s: seq<T>, n: nat): (w: seq<T>)
    ensures |w| == if |s| < n then |s| else n
    ensures forall i :: 0 <= i < |w| ==> w[i] == s[|s| - |w| + i]
  {
    if |s| <= n then s else s[|s| - n..]
  }

  /** Appends `r` as the newest record, then drops the single oldest record
      when the length has passed `Capacity`. */
  function Append(h: seq<Record>, r: Record): (h': seq<Record>)
    ensures h' != [] && Newest(h') == r
    ensures |h| < Capacity ==> h' == h + [r]
    ensures |h| >= Capacity ==> h' == h[1..] + [r]
    ensures |h| <= Capacity ==> |h'| <= Capacity
  {
    var g := h + [r];
    if |g| > Capacity then g[1..] else g
  }

  /** No record is edited by an append: everything but the new record is
      the newest part of the old history, unchanged and in order. */
  lemma AppendKeepsOlder(h: seq<Record>, r: Record)
    ensures var h' := Append(h, r);
      && |h'| - 1 <= |h|
      && h'[..|h'| - 1] == h[|h| - (|h'| - 1)..]
  {
  }

  /** Appending every record of `rs` in order. */
  function AppendAll(h: seq<Record>, rs: seq<Record>): seq<Record>
  {
    if rs == [] then h else Append(AppendAll(h, rs[..|rs| - 1]), rs[|rs| - 1])
  }

  /** A history extended by one more run of appends. */
  lemma AppendAllSnoc(h: seq<Record>, rs: seq<Record>, r: Record)
    ensures AppendAll(h, rs + [r]) == Append(AppendAll(h, rs), r)
  {
    assert (rs + [r])[..|rs|] == rs;
  }

  /** Appending to the window of a sequence gives the window of the longer
      sequence: eviction keeps exactly the most recent records. */
  lemma AppendWindow(s: seq<Record>, r: Record)
    ensures Append(Window(s, Capacity), r) == Window(s + [r], Capacity)
  {
    if |s| >= Capacity {
      assert Window(s, Capacity)[1..] + [r] == (s + [r])[|s| + 1 - Capacity..];
    }
  }

  /** Any sequence of appends to a history within the cap leaves the most
      recent `Capacity` records of everything appended so far, in order. */
  lemma {:induction false} AppendAllIsWindow(h: seq<Record>, rs: seq<Record>)
    requires |h| <= Capacity
    ensures AppendAll(h, rs) == Window(h + rs, Capacity)
    decreases |rs|
  {
    if rs == [] {
      assert h + rs == h;
    } else {
      var front, r := rs[..|rs| - 1], rs[|rs| - 1];
      AppendAllIsWindow(h, front);
      AppendWindow(h + front, r);
      assert h + front + [r] == h + rs;
    }
  }
}

=== FILE: monitor.dfy ===
/**
 The state of the health monitor and its transitions: one health check,
 starting the background loop, and the shutdown flag clear. The probe
 outcome and the clock reading of a check arrive together as a `Tick`.
 */
module HealthMonitor {
  import opened Wrappers
  import opened Probe
  import opened History

  /** Everything the monitor object holds. */
  datatype State = State(
    history: seq<Record>,
    currentStatus: CurrentStatus,
    lastCheck: Option<Timestamp>,
    monitoring: bool)

  /** The inputs of one check: what the probe returned and when it finished. */
  datatype Tick = Tick(outcome: Outcome, at: Timestamp)

  /** What every reachable state satisfies: the history is within its cap,
      and the newest record is the one `currentStatus` and `lastCheck`
      describe (both "never checked" when the history is empty). */
  predicate Valid(m: State)
  {
    && |m.history| <= Capacity
    && (m.history == [] <==> m.lastCheck == None)
    && (m.history == [] ==> m.currentStatus == Unknown)
    && (m.history != [] ==>
          && m.lastCheck == Some(Newest(m.history).timestamp)
          && m.currentStatus == Known(Newest(m.history).verdict))
  }

  /** A freshly constructed monitor. */
  function Init(): (m: State)
    ensures Valid(m) && !m.monitoring
    ensures m.currentStatus == Unknown && m.lastCheck == None && |m.history| == 0
  {
    State([], Unknown, None, false)
  }

  /** The record a check with these inputs appends. */
  function RecordOf(t: Tick): Record
  {
    Record(t.at, Classify(t.outcome))
  }

  /** One health check. */
  function CheckHealth(m: State, t: Tick): (m': State)
    ensures m'.currentStatus == Known(Classify(t.outcome))
    ensures m'.lastCheck == Some(t.at)
    ensures m'.history == Append(m.history, RecordOf(t))
    ensures m'.monitoring == m.monitoring
    ensures Valid(m) ==> Valid(m')
  {
    var verdict := Classify(t.outcome);
    m.(currentStatus := Known(verdict),
       lastCheck := Some(t.at),
       history := Append(m.history, Record(t.at, verdict)))
  }

  /** The newest record agrees with the status fields after any check,
      whatever state it started from. */
  lemma NewestMatchesStatus(m: State, t: Tick)
    ensures var m' := CheckHealth(m, t);
      && m'.history != []
      && m'.currentStatus == Known(Newest(m'.history).verdict)
      && m'.lastCheck == Some(Newest(m'.history).timestamp)
  {
  }

  /** A check records UP exactly when the probe completed with code 200. */
  lemma CheckRecordsUpIff(m: State, t: Tick)
    ensures var m' := CheckHealth(m, t);
      && (Newest(m'.history).verdict == Up <==> t.outcome == Response(200))
      && (m'.currentStatus == Known(Up) <==> t.outcome == Response(200))
  {
  }

  /** Checks in sequence, the first tick first. */
  function RunChecks(m: State, ticks: seq<Tick>): State
  {
    if ticks == [] then m
    else CheckHealth(RunChecks(m, ticks[..|ticks| - 1]), ticks[|ticks| - 1])
  }

  /** The records a run of checks produces, in order. */
  function RecordsOf(ticks: seq<Tick>): (rs: seq<Record>)
    ensures |rs| == |ticks|
  {
    if ticks == [] then []
    else RecordsOf(ticks[..|ticks| - 1]) + [RecordOf(ticks[|ticks| - 1])]
  }

  /** The records of a run extended by one tick. */
  lemma RecordsOfSnoc(ts: seq<Tick>, t: Tick)
    ensures RecordsOf(ts + [t]) == RecordsOf(ts) + [RecordOf(t)]
  {
    assert (ts + [t])[..|ts|] == ts;
  }

  /** Record i of a run is the record of tick i: the order of the records
      is the order of the checks. */
  lemma {:induction false} RecordsOfInOrder(ticks: seq<Tick>, i: nat)
    requires i < |ticks|
    ensures RecordsOf(ticks)[i] == Record(ticks[i].at, Classify(ticks[i].outcome))
    decreases |ticks|
  {
    if i < |ticks| - 1 {
      RecordsOfInOrder(ticks[..|ticks| - 1], i);
    }
  }

  /** A run of checks appends exactly its records to the history, keeps the
      invariant and never touches the monitoring flag. */
  lemma {:induction false} RunChecksAppends(m: State, ticks: seq<Tick>)
    requires Valid(m)
    ensures Valid(RunChecks(m, ticks))
    ensures RunChecks(m, ticks).history == AppendAll(m.history, RecordsOf(ticks))
    ensures RunChecks(m, ticks).monitoring == m.monitoring
    decreases |ticks|
  {
    if ticks != [] {
      var front := ticks[..|ticks| - 1];
      RunChecksAppends(m, front);
      assert RecordsOf(ticks)[..|ticks| - 1] == RecordsOf(front);
    }
  }

  /** From a fresh monitor, N checks leave exactly min(N, 100) records, and
      they are the most recent ones in the order the checks ran. */
  lemma {:induction false} ChecksFromInit(ticks: seq<Tick>)
    ensures var m := RunChecks(Init(), ticks);
      && Valid(m)
      && m.history == Window(RecordsOf(ticks), Capacity)
      && |m.history| == if |ticks| < Capacity then |ticks| else Capacity
  {
    RunChecksAppends(Init(), ticks);
    AppendAllIsWindow([], RecordsOf(ticks));
    assert [] + RecordsOf(ticks) == RecordsOf(ticks);
  }

  /** Starting the background loop: the new state, and whether a new loop
      thread is started. Starting again while monitoring changes nothing. */
  function StartMonitoring(m: State): (r: (State, bool))
    ensures r.0.monitoring
    ensures r.1 <==> !m.monitoring
    ensures r.0 == m.(monitoring := true)
    ensures Valid(m) ==> Valid(r.0)
  {
    if !m.monitoring then (m.(monitoring := true), true) else (m, false)
  }

  /** Start is idempotent: a second start right after a first is a no-op and
      spawns nothing, so at most one loop is started. */
  lemma StartIdempotent(m: State)
    ensures var (m1, spawned1) := StartMonitoring(m);
      && StartMonitoring(m1) == (m1, false)
      && (m.monitoring ==> m1 == m && !spawned1)
  {
  }

  /** The shutdown path clears the flag and nothing else. */
  function Shutdown(m: State): (m': State)
    ensures !m'.monitoring
    ensures m'.history == m.history && m'.currentStatus == m.currentStatus
    ensures m'.lastCheck == m.lastCheck
    ensures Valid(m) ==> Valid(m')
  {
    m.(monitoring := false)
  }

  /** The background loop: while the flag is set, one check per tick. The
      ticks stand for the probe results and clock readings of successive
      iterations; the 60-second sleep between them is not modelled. Since a
      check never clears the flag, the loop runs every tick or, when the
      flag is off on entry, none. */
  method MonitorLoop(m: State, ticks: seq<Tick>) returns (final: State, checks: nat)
    ensures final.monitoring == m.monitoring
    ensures checks == if m.monitoring then |ticks| else 0
    ensures final == RunChecks(m, ticks[..checks])
    ensures Valid(m) && m.monitoring ==>
              final.history == AppendAll(m.history, RecordsOf(ticks)) && Valid(final)
  {
    final, checks := m, 0;
    assert ticks[..0] == [];
    while final.monitoring && checks < |ticks|
      invariant checks <= |ticks|
      invariant final.monitoring == m.monitoring
      invariant !m.monitoring ==> checks == 0
      invariant final == RunChecks(m, ticks[..checks])
    {
      assert ticks[..checks + 1][..checks] == ticks[..checks];
      final := CheckHealth(final, ticks[checks]);
      checks := checks + 1;
    }
    if Valid(m) && m.monitoring {
      assert ticks[..checks] == ticks;
      RunChecksAppends(m, ticks);
    }
  }
}

=== FILE: probe.dfy ===
/**
 The single outbound health probe of the monitor and the status vocabulary
 it produces. The HTTP GET itself is a foreign call; the model receives its
 outcome as data.
 */
module Probe {

  /** The two-valued result of one health check. */
  datatype Verdict = Up | Down

  /** What the GET of the health URL came back with: a completed response
      carrying a status code, a `URLError` (refused connection, DNS, TLS,
      connect timeout, `HTTPError`), or any other `Exception`, such as a
      timeout while reading the response. */
  datatype Outcome = Response(code: int) | UrlError | OtherError

  /** The monitor's current status: "Unknown" until the first check. */
  datatype CurrentStatus = Unknown | Known(verdict: Verdict)

  /** Classification of a probe outcome. It is total: every outcome the
      `except` clauses catch becomes `Down`. `KeyboardInterrupt` and
      `SystemExit` are not `Exception`s and are not modelled. */
  function Classify(o: Outcome): (v: Verdict)
    ensures v == Up <==> o.Response? && o.code == 200
    ensures v == Down <==> (o.Response? ==> o.code != 200)
  {
    match o
    case Response(code) => if code == 200 then Up else Down
    case UrlError => Down
    case OtherError => Down
  }

  /** The strings the source stores and reports for a status. */
  function Label(s: CurrentStatus): (l: string)
    ensures l == "Unknown" <==> s == Unknown
    ensures l == "UP" <==> s == Known(Up)
    ensures l == "DOWN" <==> s == Known(Down)
  {
    match s
    case Unknown => "Unknown"
    case Known(Up) => "UP"
    case Known(Down) => "DOWN"
  }
}

=== FILE: wrappers.dfy ===
/** Optional values, standing in for Python's `None`. */
module Wrappers {

  datatype Option<+T> = None | Some(value: T)
}
